=== FILE: README.md ===
# Coming-soon site: countdown and cursor hover logic

A model of the two pieces of logic in a "coming soon" marketing site built
with Next.js.

- **Countdown** (`src/components/Countdown.tsx`). Once per second,
  `calculateTimeLeft` takes the milliseconds between a fixed launch instant
  and now. A positive difference is split into days, hours, minutes and
  seconds and replaces the `TimeLeft` record. A difference of zero or less
  leaves the record as it was. `formatNumber` writes each field as decimal
  text zero-padded to at least two characters. `TimeUnit` renders one flip
  card per character of that text.
- **Custom cursor** (`src/components/CustomCursor.tsx`). `handleMouseMove`
  records the pointer as the target position. `checkHoverState` tests the
  smoothed position against the bounding boxes of the interactive elements,
  with every edge inclusive. When the answer differs from `isHovering`, it
  sets `isHovering` to the answer and `targetScale` to 2 (hovering) or
  1 (not hovering). On a touch device the component installs nothing and
  renders nothing.

Modules: `Decimal` (`decimal.dfy`) holds integer-to-text, `padStart` and a
reference parser. `Countdown` (`countdown.dfy`) holds the tick, the traces of
ticks, formatting and the flip cards. `CustomCursor` (`cursor.dfy`) holds
the hover state machine.

Modelling choices:
- Instants are integer milliseconds, as `getTime()` returns them. The launch
  instant and each tick's "now" are parameters.
- The tick uses integer division. `SourceFieldsAgree` shows that the
  source's expressions (`Math.floor` of floating-point quotients, and
  JavaScript's truncating `%`) give the same fields for every positive
  difference when read in exact real arithmetic.
- Cursor coordinates are exact reals. The position interpolation is not
  modelled: an animation frame is an event that carries the already-smoothed
  position and scale, plus the rectangles of that frame.

## Model

| member | source | states |
|---|---|---|
| `Decimal.NatToString` | src/components/Countdown.tsx:44 | `toString` of a non-negative integer is a non-empty digit string with no leading zero, and it has one character exactly when the number is below 10 |
| `Decimal.IntToString` | src/components/Countdown.tsx:44 | `toString` of an integer of magnitude at most 2^53 starts with `-` exactly when the number is negative; the rest is a canonical digit string |
| `Decimal.PadStart` | src/components/Countdown.tsx:44 | `padStart(width, fill)` leaves a string of length `width` or more alone; a shorter one becomes exactly `width` long, the original as a suffix and `fill` before it |
| `Decimal.ParseNatToString` | src/components/Countdown.tsx:44 | reading a number's decimal text back gives the number |
| `Decimal.ParseIntToString` | src/components/Countdown.tsx:44 | the same round trip for signed integers |
| `Decimal.NatToStringOfParse` | src/components/Countdown.tsx:44 | the converse: every canonical digit string is the text of the number it denotes |
| `Decimal.NatToStringInjective` | src/components/Countdown.tsx:118 | distinct indices have distinct decimal text, which makes the card keys distinct |
| `Countdown.Breakdown` | src/components/Countdown.tsx:31-34 | the split is normalized (days ≥ 0, hours < 24, minutes and seconds < 60, none negative), and days·86400 + hours·3600 + minutes·60 + seconds equals the difference divided by 1000 |
| `Countdown.NormalizedUnique` | src/components/Countdown.tsx:31-34 | a normalized record is determined by the seconds it stands for, so the two facts above fix the split completely |
| `Countdown.BreakdownOfTotal` | src/components/Countdown.tsx:31-34 | the split inverts the seconds count: any normalized record, turned into milliseconds (any sub-second remainder), splits back into itself |
| `Countdown.Initial` | src/components/Countdown.tsx:18-23 | the record before the first tick is normalized and stands for zero seconds |
| `Countdown.Tick` | src/components/Countdown.tsx:26-37 | a positive `target - now` gives a normalized record with the right seconds count; zero or negative keeps the previous record unchanged; a non-negative record stays non-negative |
| `Countdown.FloorOfQuotient` | src/components/Countdown.tsx:31 | `Math.floor(a / n)` on exact reals equals integer division for non-negative `a` |
| `Countdown.FloorOfRemainder` | src/components/Countdown.tsx:32-34 | `Math.floor((a / n) % m)` with JavaScript's truncating remainder equals `(a / n) % m` in integers for non-negative `a` |
| `Countdown.SourceFieldsAgree` | src/components/Countdown.tsx:31-34 | for a positive difference, the four expressions as written, read in exact reals, give the same record as the integer split |
| `Countdown.Run` | src/components/Countdown.tsx:26-40 | a sequence of ticks publishes one record per tick; the first is the tick applied to the record held before, and each later one is the tick applied to the record the previous tick published |
| `Countdown.RunNonNegative` | src/components/Countdown.tsx:18-36 | from a non-negative start, such as the initial all-zeros record, every published record is non-negative |
| `Countdown.TickMonotone` | src/components/Countdown.tsx:27-34 | with a fixed target and a later "now", the next tick never shows more seconds than this one |
| `Countdown.RunMonotone` | src/components/Countdown.tsx:27-40 | with a non-decreasing clock, the seconds shown never increase from any tick to any later tick |
| `Countdown.RunHoldsAfterExpiry` | src/components/Countdown.tsx:29-36 | once "now" has reached the target, every later tick republishes the record it started from |
| `Countdown.FormatNumber` | src/components/Countdown.tsx:44 | for values of magnitude at most 2^53, the text has at least two characters; 0–9 become "0" then the digit; 10 and above become the plain decimal text, not truncated; negatives become "-" then the digits; the text parses back to the number |
| `Countdown.CardKeyInjective` | src/components/Countdown.tsx:118 | keys `${label}-${index}` with the same label are equal only for equal indices |
| `Countdown.TimeUnitCards` | src/components/Countdown.tsx:111-119 | one card per character of the value, card `i` showing character `i` under the key `${label}-${i}`, so the keys are pairwise distinct |
| `Countdown.CardsTextOfTimeUnit` | src/components/Countdown.tsx:112-119 | the cards, read left to right, spell out the value they were made from |
| `Countdown.UnitOf` | src/components/Countdown.tsx:111-119 | a unit for a number has at least two cards, and they spell out exactly `formatNumber` of the number, which parses back to it |
| `Countdown.Display` | src/components/Countdown.tsx:65-71 | four units labelled DAYS, HRS, MIN, SEC in that order, each with at least two cards spelling out exactly `formatNumber` of days, hours, minutes and seconds, which read back as those fields |
| `Countdown.OneOfEachExample` | src/components/Countdown.tsx:29-44 | whatever record was held before, a difference of 90,061,000 ms gives one day, one hour, one minute and one second, and 1 is formatted as "01" |
| `Countdown.BreakdownExample` | src/components/Countdown.tsx:31-34 | 90,061,000 ms splits into exactly one of each unit |
| `Countdown.FormatOne` | src/components/Countdown.tsx:44 | 1 is written as "01" |
| `CustomCursor.InitialState` | src/components/CustomCursor.tsx:39-43 | the hover record starts not hovering with scale 1, and its target scale already agrees with the hover flag |
| `CustomCursor.ScanFrom` | src/components/CustomCursor.tsx:71-84 | the `forEach` flag ends true exactly when it started true or some rectangle contains the point |
| `CustomCursor.IsOverInteractive` | src/components/CustomCursor.tsx:71-84 | true exactly when some rectangle has left ≤ x ≤ right and top ≤ y ≤ bottom, all edges inclusive |
| `CustomCursor.OverInteractiveOrderIndependent` | src/components/CustomCursor.tsx:74-84 | reordering the element list, as a permutation, does not change the answer |
| `CustomCursor.CheckHoverState` | src/components/CustomCursor.tsx:66-90 | afterwards `isHovering` equals the containment answer; the scale is untouched; if the answer already equalled `isHovering` the record is unchanged; the invariant target scale = (hovering ? 2 : 1) is preserved, and it is re-established whenever the flag flips |
| `CustomCursor.CheckHoverIdempotent` | src/components/CustomCursor.tsx:86-89 | a second check at the same position against the same rectangles changes nothing |
| `CustomCursor.HandleMouseMove` | src/components/CustomCursor.tsx:60-63 | the target becomes the client coordinates; the position and the previous position are untouched |
| `CustomCursor.Step` | src/components/CustomCursor.tsx:60-160 | a mouse move sets the target to the client coordinates and leaves the position, the previous position and the hover record alone; a frame sets the position and the scale to the smoothed values it carries, moves the current position into the previous one, keeps the target, and leaves `isHovering` equal to the containment answer at the new position; a frame that does not flip the flag keeps the target scale; the scale invariant is preserved |
| `CustomCursor.Run` | src/components/CustomCursor.tsx:60-163 | no events leave the cursor as it was; a non-empty sequence ends with its last event applied to the state the earlier events left |
| `CustomCursor.RunConsistent` | src/components/CustomCursor.tsx:86-89 | from a consistent record, such as the initial one, target scale agrees with the hover flag after any sequence of events |
| `CustomCursor.MountedRunConsistent` | src/components/CustomCursor.tsx:30-43 | starting from the all-zero position record and the initial hover record, target scale agrees with the hover flag after any events |
| `CustomCursor.MouseMovesOnlyRetarget` | src/components/CustomCursor.tsx:60-63 | any run of mouse moves leaves the hover record, the position and the previous position as they were |
| `CustomCursor.Render` | src/components/CustomCursor.tsx:173-238 | the component renders nothing exactly on a touch device; otherwise it renders both the glow and the ring |
| `CustomCursor.Effect` | src/components/CustomCursor.tsx:45-50 | the frame loop and the mouse listener are installed together, and only off a touch device with both layers present |
| `CustomCursor.MountGuard` | src/components/CustomCursor.tsx:46-174 | on a touch device nothing is rendered or installed; on any other device both the listener and the frame loop are installed |

## Left out

- Scheduling is not modelled: `setInterval`/`clearInterval` (Countdown.tsx:39-41) and `requestAnimationFrame`, `cancelAnimationFrame` and the event listeners (CustomCursor.tsx:159-170). Each tick or frame is one call of a pure step function. The tick instants are arbitrary inputs, so the 1000 ms period is not modelled.
- Countdown.FormatNumber: like `Decimal.IntToString` (which the same applies to), it writes the exact decimal digits of every integer. `toString` does so only up to 2^53 in magnitude. Above that the value is first rounded to a double, and the shortest digits that read back as it are padded with zeros (`(2**60).toString()` is `"1152921504606847000"`). From 10^21 it switches to exponent notation (`1e+21`). No field gets anywhere near 2^53: `getTime()` lies within ±8.64·10^15 ms, so the difference is below 2·10^16 ms, the day count below 3·10^8, and the other fields below 60.
- IEEE-754 rounding is not modelled: the field expressions are read in exact reals, and `SourceFieldsAgree` is a statement about those exact values.
- A `targetDate` that is an invalid `Date` (whose `getTime()` is NaN) is not modelled: the target is an integer.
- Date construction in `src/app/page.tsx` is not modelled: the target is an integer timestamp.
- The lerp smoothing of position and scale, and the velocity, stretch, rotation, glow and opacity values written into style strings (CustomCursor.tsx:55-57, 97-153), are left out. They are floating-point numerics for purely cosmetic output. A frame event carries the smoothed position and scale as inputs.
- DOM access is replaced by inputs: `querySelectorAll` and `getBoundingClientRect` become the frame's list of rectangles.
- The touch-device probe (`ontouchstart`, `maxTouchPoints`, `matchMedia`, CustomCursor.tsx:21-28) becomes the boolean input `isTouchDevice`.
- The flip-card animation, colours and labels' styling (Countdown.tsx:47-161, apart from the card split) are presentation only.
- `ContactForm.tsx`, `Header.tsx`, `page.tsx`, `contact/page.tsx` and `layout.tsx` are not part of this model. They hold static markup, animation parameters, a pathname comparison and form fields that are only stored and logged.
- Trail particles are not modelled because the cursor source contains none.

=== FILE: countdown.dfy ===
/**
  The countdown to a fixed launch instant: the once-per-second tick that
  splits the remaining milliseconds into days, hours, minutes and seconds,
  the two-character formatting of each field, and the flip cards that show
  one character each. Instants are integer milliseconds since the epoch,
  as `Date.prototype.getTime()` returns them.
 */
module Countdown {
  import opened Decimal

  const MsPerSecond: int := 1000
  const MsPerMinute: int := 1000 * 60
  const MsPerHour: int := 1000 * 60 * 60
  const MsPerDay: int := 1000 * 60 * 60 * 24

  /** The remaining time shown on the page. */
  datatype TimeLeft = TimeLeft(days: int, hours: int, minutes: int, seconds: int)

  /** The `useState` record before the first tick has run: a normalized record standing for no time at all. */
  function Initial(): (t: TimeLeft)
    ensures Normalized(t) && TotalSeconds(t) == 0
  {
    TimeLeft(0, 0, 0, 0)
  }

  predicate NonNegative(t: TimeLeft) {
    t.days >= 0 && t.hours >= 0 && t.minutes >= 0 && t.seconds >= 0
  }

  /** Every field below the unit above it. */
  predicate Normalized(t: TimeLeft) {
    t.days >= 0 && 0 <= t.hours < 24 && 0 <= t.minutes < 60 && 0 <= t.seconds < 60
  }

  /** The whole seconds a record stands for. */
  function TotalSeconds(t: TimeLeft): int {
    t.days * 86400 + t.hours * 3600 + t.minutes * 60 + t.seconds
  }

  lemma MulAtLeast(d: int, x: int)
    requires d > 0 && x >= 1
    ensures d * x >= d
  {
  }

  /** Euclidean division is determined by quotient and remainder bounds. */
  lemma DivUnique(a: int, d: int, q: int, r: int)
    requires d > 0 && 0 <= r < d && a == d * q + r
    ensures a / d == q
  {
    var q0, r0 := a / d, a % d;
    assert a == d * q0 + r0;
    assert d * (q0 - q) == r - r0;
    if q0 > q {
      MulAtLeast(d, q0 - q);
    } else if q0 < q {
      MulAtLeast(d, q - q0);
    }
  }

  lemma MulMono(b: int, x: int, y: int)
    requires b > 0 && 0 <= x <= y
    ensures b * x <= b * y
  {
  }

  lemma DivDiv(a: int, b: int, c: int)
    requires a >= 0 && b > 0 && c > 0
    ensures (a / b) / c == a / (b * c)
  {
    var q, r := a / b, a % b;
    var q2, r2 := q / c, q % c;
    assert a == b * q + r;
    assert q == c * q2 + r2;
    assert b * q == (b * c) * q2 + b * r2;
    MulMono(b, r2, c - 1);
    assert b * (c - 1) == b * c - b;
    DivUnique(a, b * c, q2, b * r2 + r);
  }

  /** The split of a positive difference of `difference` milliseconds into fields. */
  function Breakdown(difference: nat): (t: TimeLeft)
    ensures Normalized(t)
    ensures TotalSeconds(t) == difference / MsPerSecond
  {
    var t := TimeLeft(
      difference / MsPerDay,
      (difference / MsPerHour) % 24,
      (difference / MsPerMinute) % 60,
      (difference / MsPerSecond) % 60);
    var s := difference / MsPerSecond;
    DivDiv(difference, 1000, 60);
    DivDiv(s, 60, 60);
    DivDiv(difference, 1000, 3600);
    DivDiv(s, 3600, 24);
    DivDiv(difference, 1000, 86400);
    var m := s / 60;
    var h := m / 60;
    assert s == 60 * m + s % 60;
    assert m == 60 * h + m % 60;
    assert h == 24 * (h / 24) + h % 24;
    assert t.days == h / 24 && t.hours == h % 24 && t.minutes == m % 60;
    t
  }

  /** Two normalized records standing for the same seconds are the same record. */
  lemma NormalizedUnique(a: TimeLeft, b: TimeLeft)
    requires Normalized(a) && Normalized(b)
    requires TotalSeconds(a) == TotalSeconds(b)
    ensures a == b
  {
  }

  /** The breakdown inverts `TotalSeconds`: any normalized record is recovered from its milliseconds. */
  lemma BreakdownOfTotal(t: TimeLeft, ms: int)
    requires Normalized(t) && 0 <= ms < MsPerSecond
    ensures Breakdown(TotalSeconds(t) * MsPerSecond + ms) == t
  {
    var d := TotalSeconds(t) * MsPerSecond + ms;
    assert d / MsPerSecond == TotalSeconds(t);
    NormalizedUnique(Breakdown(d), t);
  }

  /**
    One run of `calculateTimeLeft`: with `difference = target - now`, a
    positive difference replaces the record by its breakdown, and any other
    difference leaves the previous record in place.
   */
  function Tick(prev: TimeLeft, target: int, now: int): (next: TimeLeft)
    ensures target - now <= 0 ==> next == prev
    ensures target - now > 0 ==> Normalized(next)
    ensures target - now > 0 ==> TotalSeconds(next) == (target - now) / MsPerSecond
    ensures NonNegative(prev) ==> NonNegative(next)
  {
    var difference := target - now;
    if difference > 0 then Breakdown(difference) else prev
  }

  /**
    JavaScript's `%` on numbers: the remainder of the division truncated
    toward zero, so it keeps the sign of the dividend.
   */
  function JsRem(x: real, m: real): real
    requires m > 0.0
  {
    x - m * Trunc(x / m) as real
  }

  function Trunc(x: real): int {
    if x >= 0.0 then x.Floor else -((-x).Floor)
  }

  /** The four field expressions of `calculateTimeLeft`, read in exact real arithmetic. */
  function SourceFields(difference: int): TimeLeft {
    TimeLeft(
      (difference as real / (1000 * 60 * 60 * 24) as real).Floor,
      JsRem(difference as real / (1000 * 60 * 60) as real, 24.0).Floor,
      JsRem(difference as real / 1000.0 / 60.0, 60.0).Floor,
      JsRem(difference as real / 1000.0, 60.0).Floor)
  }

  lemma FloorOfQuotient(a: int, n: int)
    requires a >= 0 && n > 0
    ensures (a as real / n as real).Floor == a / n
  {
    var q, r := a / n, a % n;
    assert a as real == q as real * n as real + r as real;
    assert a as real / n as real == q as real + r as real / n as real;
    assert 0.0 <= r as real / n as real < 1.0;
  }

  lemma QuotientOfQuotient(a: int, n: int, m: int)
    requires n > 0 && m > 0
    ensures (a as real / n as real) / m as real == a as real / (n * m) as real
  {
  }
  lemma RemainderAsQuotient(a: int, n: int, m: int, k: int)
    requires n > 0 && m > 0
    ensures a as real / n as real - m as real * k as real == (a - n * m * k) as real / n as real
  {
  }
  lemma TruncOfQuotient(a: int, n: int, m: int)
    requires a >= 0 && n > 0 && m > 0
    ensures Trunc((a as real / n as real) / m as real) == a / (n * m)
  {
    QuotientOfQuotient(a, n, m);
    FloorOfQuotient(a, n * m);
  }

  /** The integer side: the remainder of the quotient, written through the quotient by `n * m`. */
  lemma RemainderOfQuotient(a: int, n: int, m: int)
    requires a >= 0 && n > 0 && m > 0
    ensures a - n * m * (a / (n * m)) >= 0
    ensures (a - n * m * (a / (n * m))) / n == (a / n) % m
  {
    var k := a / (n * m);
    DivDiv(a, n, m);
    assert a == (n * m) * k + a % (n * m);
    var rest := a - n * m * k;
    assert rest == n * (a / n - m * k) + a % n;
    DivUnique(rest, n, a / n - m * k, a % n);
  }

  /** `Math.floor((a / n) % m)` for a non-negative integer `a` is `(a / n) % m` in integers. */
  lemma FloorOfRemainder(a: int, n: int, m: int)
    requires a >= 0 && n > 0 && m > 0
    ensures JsRem(a as real / n as real, m as real).Floor == (a / n) % m
  {
    var x, k := a as real / n as real, a / (n * m);
    TruncOfQuotient(a, n, m);
    assert JsRem(x, m as real) == x - m as real * k as real;
    RemainderAsQuotient(a, n, m, k);
    RemainderOfQuotient(a, n, m);
    FloorOfQuotient(a - n * m * k, n);
  }

  lemma DaysAgree(difference: int)
    requires difference > 0
    ensures SourceFields(difference).days == Breakdown(difference).days
  {
    FloorOfQuotient(difference, 1000 * 60 * 60 * 24);
  }

  lemma HoursAgree(difference: int)
    requires difference > 0
    ensures SourceFields(difference).hours == Breakdown(difference).hours
  {
    FloorOfRemainder(difference, 1000 * 60 * 60, 24);
  }

  lemma MinutesAgree(difference: int)
    requires difference > 0
    ensures SourceFields(difference).minutes == Breakdown(difference).minutes
  {
    QuotientOfQuotient(difference, 1000, 60);
    FloorOfRemainder(difference, 1000 * 60, 60);
  }

  lemma SecondsAgree(difference: int)
    requires difference > 0
    ensures SourceFields(difference).seconds == Breakdown(difference).seconds
  {
    FloorOfRemainder(difference, 1000, 60);
  }

  /** For a positive difference the source's floating-point formulas, taken exactly, agree with the integer breakdown. */
  lemma SourceFieldsAgree(difference: int)
    requires difference > 0
    ensures SourceFields(difference) == Breakdown(difference)
  {
    DaysAgree(difference);
    HoursAgree(difference);
    MinutesAgree(difference);
    SecondsAgree(difference);
  }

  /** The records published by successive ticks at the instants `nows`. */
  function Run(start: TimeLeft, target: int, nows: seq<int>): (states: seq<TimeLeft>)
    ensures |states| == |nows|
    ensures |nows| > 0 ==> states[0] == Tick(start, target, nows[0])
    ensures forall i :: 1 <= i < |nows| ==> states[i] == Tick(states[i - 1], target, nows[i])
    decreases |nows|
  {
    if |nows| == 0 then []
    else
      var first := Tick(start, target, nows[0]);
      var rest := Run(first, target, nows[1..]);
      assert forall i :: 1 <= i < |nows| ==> ([first] + rest)[i] == rest[i - 1] && nows[i] == nows[1..][i - 1];
      [first] + rest
  }

  predicate NonDecreasing(nows: seq<int>) {
    forall i, j :: 0 <= i <= j < |nows| ==> nows[i] <= nows[j]
  }

  /** Starting from a non-negative record (the initial zeros are one), every published record is non-negative. */
  lemma {:induction false} RunNonNegative(start: TimeLeft, target: int, nows: seq<int>)
    requires NonNegative(start)
    ensures forall i :: 0 <= i < |nows| ==> NonNegative(Run(start, target, nows)[i])
    decreases |nows|
  {
    if |nows| > 0 {
      var first := Tick(start, target, nows[0]);
      RunNonNegative(first, target, nows[1..]);
      var states := Run(start, target, nows);
      forall i | 1 <= i < |nows|
        ensures NonNegative(states[i])
      {
        assert states[i] == Run(first, target, nows[1..])[i - 1];
      }
    }
  }

  /** A later tick never shows more seconds than the tick before it. */
  lemma TickMonotone(start: TimeLeft, target: int, now1: int, now2: int)
    requires now1 <= now2
    ensures TotalSeconds(Tick(Tick(start, target, now1), target, now2)) <= TotalSeconds(Tick(start, target, now1))
  {
  }

  /** With a fixed target and a clock that does not go back, the seconds shown never increase from one tick to any later one. */
  lemma {:induction false} RunMonotone(start: TimeLeft, target: int, nows: seq<int>)
    requires NonDecreasing(nows)
    ensures forall i, j :: 0 <= i <= j < |nows| ==>
      TotalSeconds(Run(start, target, nows)[j]) <= TotalSeconds(Run(start, target, nows)[i])
    decreases |nows|
  {
    if |nows| > 0 {
      var first := Tick(start, target, nows[0]);
      var rest := Run(first, target, nows[1..]);
      var states := Run(start, target, nows);
      assert states == [first] + rest;
      RunMonotone(first, target, nows[1..]);
      if |nows| > 1 {
        TickMonotone(start, target, nows[0], nows[1]);
        assert rest[0] == Tick(first, target, nows[1]);
      }
      forall i, j | 0 <= i <= j < |nows|
        ensures TotalSeconds(states[j]) <= TotalSeconds(states[i])
      {
        if i == 0 && j > 0 {
          assert states[j] == rest[j - 1];
          assert TotalSeconds(rest[j - 1]) <= TotalSeconds(rest[0]);
        } else if i > 0 {
          assert states[i] == rest[i - 1] && states[j] == rest[j - 1];
        }
      }
    }
  }

  /** Once the target has passed, every later tick republishes the record held at that moment. */
  lemma {:induction false} RunHoldsAfterExpiry(start: TimeLeft, target: int, nows: seq<int>)
    requires NonDecreasing(nows)
    requires |nows| > 0 && nows[0] >= target
    ensures forall j :: 0 <= j < |nows| ==> Run(start, target, nows)[j] == start
    decreases |nows|
  {
    var first := Tick(start, target, nows[0]);
    assert first == start;
    if |nows| > 1 {
      RunHoldsAfterExpiry(start, target, nows[1..]);
    }
    var states := Run(start, target, nows);
    forall j | 1 <= j < |nows|
      ensures states[j] == start
    {
      assert states[j] == Run(first, target, nows[1..])[j - 1];
    }
  }

  lemma ParsePadded(n: int)
    requires 0 <= n < 10
    ensures Numeral(['0', DigitChar(n)]) && ParseInt(['0', DigitChar(n)]) == n
  {
    var r := ['0', DigitChar(n)];
    assert r[..|r| - 1] == ['0'];
    assert ['0'][..0] == [];
    assert ParseNat(['0']) == 0;
    assert ParseNat(r) == 10 * ParseNat(['0']) + DigitValue(DigitChar(n));
  }

  /** `formatNumber`: the number's decimal text, padded with zeros to at least two characters. */
  function FormatNumber(n: int): (r: string)
    ensures |r| >= 2
    ensures 0 <= n < 10 ==> r == ['0', DigitChar(n)]
    ensures n >= 10 ==> r == NatToString(n)
    ensures n < 0 ==> r == "-" + NatToString(-n)
    ensures Numeral(r) && ParseInt(r) == n
  {
    var text := IntToString(n);
    var r := PadStart(text, 2, '0');
    ParseIntToString(n);
    assert 0 <= n < 10 ==> text == [DigitChar(n)] && r == ['0'] + text;
    assert n < 0 ==> r == text && r[1..] == NatToString(-n);
    if 0 <= n < 10 then ParsePadded(n); r else r
  }

  /** One flip card of a time unit: its React key and the one-character string it shows. */
  datatype FlipCard = FlipCard(key: string, digit: string)

  function CardKey(unitLabel: string, index: nat): string {
    unitLabel + "-" + NatToString(index)
  }

  lemma CardKeyInjective(unitLabel: string, i: nat, j: nat)
    requires CardKey(unitLabel, i) == CardKey(unitLabel, j)
    ensures i == j
  {
    var n := |unitLabel| + 1;
    assert NatToString(i) == CardKey(unitLabel, i)[n..];
    assert NatToString(j) == CardKey(unitLabel, j)[n..];
    NatToStringInjective(i, j);
  }

  /** `TimeUnit`: `value.split('')` mapped to one card per character, keyed by unitLabel and position. */
  function TimeUnitCards(value: string, unitLabel: string): (cards: seq<FlipCard>)
    ensures |cards| == |value|
    ensures forall i :: 0 <= i < |cards| ==> cards[i].digit == [value[i]]
    ensures forall i :: 0 <= i < |cards| ==> cards[i].key == CardKey(unitLabel, i)
    ensures forall i, j :: 0 <= i < |cards| && 0 <= j < |cards| && i != j ==> cards[i].key != cards[j].key
  {
    var cards := seq(|value|, i requires 0 <= i < |value| => FlipCard(CardKey(unitLabel, i), [value[i]]));
    assert forall i, j :: 0 <= i < |cards| && 0 <= j < |cards| && cards[i].key == cards[j].key ==> i == j by {
      forall i, j | 0 <= i < |cards| && 0 <= j < |cards| && cards[i].key == cards[j].key
        ensures i == j
      {
        CardKeyInjective(unitLabel, i, j);
      }
    }
    cards
  }

  /** The text the cards show, read left to right. */
  function CardsText(cards: seq<FlipCard>): string {
    if |cards| == 0 then "" else cards[0].digit + CardsText(cards[1..])
  }

  /** Reading the cards in order gives back the value they were made from. */
  lemma {:induction false} CardsTextOfTimeUnit(value: string, unitLabel: string)
    ensures CardsText(TimeUnitCards(value, unitLabel)) == value
  {
    var cards := TimeUnitCards(value, unitLabel);
    CardsTextPrefix(cards, value, |value|);
    assert cards[..|value|] == cards && value[..|value|] == value;
  }

  lemma {:induction false} CardsTextPrefix(cards: seq<FlipCard>, value: string, k: nat)
    requires |cards| == |value| && k <= |value|
    requires forall i :: 0 <= i < |cards| ==> cards[i].digit == [value[i]]
    ensures CardsText(cards[|cards| - k..]) == value[|value| - k..]
    decreases k
  {
    if k > 0 {
      var n := |cards| - k;
      CardsTextPrefix(cards, value, k - 1);
      assert cards[n..][1..] == cards[n + 1..];
      assert value[n..] == [value[n]] + value[n + 1..];
    }
  }

  /** One labelled unit of the display: DAYS, HRS, MIN or SEC with its cards. */
  datatype UnitView = UnitView(unitLabel: string, cards: seq<FlipCard>)

  /** A unit labelled `unitLabel` whose cards, read in order, parse back to `n`. */
  predicate Shows(u: UnitView, unitLabel: string, n: int) {
    u.unitLabel == unitLabel && Numeral(CardsText(u.cards)) && ParseInt(CardsText(u.cards)) == n
  }

  /**
    A unit showing the number `n`: at least two cards spelling out its
    formatted text. That it `Shows` `n` under its label follows from the
    text and `FormatNumber`'s round trip, and is stated for callers.
   */
  function UnitOf(unitLabel: string, n: int): (u: UnitView)
    ensures |u.cards| >= 2
    ensures CardsText(u.cards) == FormatNumber(n)
    ensures Shows(u, unitLabel, n)
  {
    var value := FormatNumber(n);
    CardsTextOfTimeUnit(value, unitLabel);
    UnitView(unitLabel, TimeUnitCards(value, unitLabel))
  }

  /** The labels of the four units, in the order the component renders them. */
  const Labels: seq<string> := ["DAYS", "HRS", "MIN", "SEC"]

  /** The field shown by the unit at position `k`. */
  function Field(t: TimeLeft, k: int): int
    requires 0 <= k < 4
  {
    if k == 0 then t.days else if k == 1 then t.hours else if k == 2 then t.minutes else t.seconds
  }

  /**
    The four units the component renders: each labelled in order, spelling
    out its formatted field; `Shows` is the corollary that each reads back
    as its field.
   */
  function Display(t: TimeLeft): (units: seq<UnitView>)
    ensures |units| == 4
    ensures forall k :: 0 <= k < 4 ==> CardsText(units[k].cards) == FormatNumber(Field(t, k))
    ensures forall k :: 0 <= k < 4 ==> |units[k].cards| >= 2 && Shows(units[k], Labels[k], Field(t, k))
  {
    seq(4, k requires 0 <= k < 4 => UnitOf(Labels[k], Field(t, k)))
  }

  /** 90,061,000 ms is one day, one hour, one minute and one second, each shown as "01". */
  lemma OneOfEachExample(prev: TimeLeft, target: int, now: int)
    requires target - now == 90061000
    ensures Tick(prev, target, now) == TimeLeft(1, 1, 1, 1)
    ensures FormatNumber(1) == "01"
  {
    BreakdownExample();
    FormatOne();
  }

  lemma BreakdownExample()
    ensures Breakdown(90061000) == TimeLeft(1, 1, 1, 1)
  {
    NormalizedUnique(Breakdown(90061000), TimeLeft(1, 1, 1, 1));
  }

  lemma FormatOne()
    ensures FormatNumber(1) == "01"
  {
    assert DigitChar(1) == '1';
  }
}

=== FILE: cursor.dfy ===
/**
  The custom cursor's hover logic: pointer targets written by mouse moves,
  an inclusive point-in-rectangle test over the bounding boxes of the
  interactive elements, and the two-field hover state whose target scale
  follows the hover flag. Coordinates are exact reals; the interpolation
  that produces each frame's smoothed position and scale is an input here.
 */
module CustomCursor {

  /** A bounding client rectangle. */
  datatype Rect = Rect(left: real, top: real, right: real, bottom: real)

  /** The pointer record: smoothed position, raw target, and the previous frame's position. */
  datatype Position = Position(x: real, y: real, targetX: real, targetY: real, prevX: real, prevY: real)

  /** The hover record. */
  datatype HoverState = HoverState(isHovering: bool, scale: real, targetScale: real)

  /** Every edge of the rectangle belongs to it. */
  predicate Contains(r: Rect, x: real, y: real) {
    x >= r.left && x <= r.right && y >= r.top && y <= r.bottom
  }

  /** The scale the cursor grows toward: double over an interactive element. */
  function ScaleFor(hovering: bool): real {
    if hovering then 2.0 else 1.0
  }

  /** The target scale agrees with the hover flag. */
  predicate Consistent(s: HoverState) {
    s.targetScale == ScaleFor(s.isHovering)
  }

  /** The position record the component starts with: every coordinate zero. */
  const InitialPosition: Position := Position(0.0, 0.0, 0.0, 0.0, 0.0, 0.0)

  /** The hover record the component starts with. */
  function InitialState(): (s: HoverState)
    ensures !s.isHovering && s.scale == 1.0
    ensures Consistent(s)
  {
    HoverState(false, 1.0, 1.0)
  }

  /**
    The `forEach` over the rectangles: the flag, once set by a rectangle
    containing the point, stays set for the rest of the list.
   */
  function ScanFrom(rects: seq<Rect>, x: real, y: real, found: bool): (b: bool)
    ensures b <==> found || exists i :: 0 <= i < |rects| && Contains(rects[i], x, y)
    decreases |rects|
  {
    if |rects| == 0 then found
    else
      var rest := ScanFrom(rects[1..], x, y, found || Contains(rects[0], x, y));
      assert forall i :: 1 <= i < |rects| ==> rects[i] == rects[1..][i - 1];
      assert forall i :: 0 <= i < |rects| - 1 ==> rects[1..][i] == rects[i + 1];
      rest
  }

  /** `isOverInteractive`: true exactly when some rectangle contains the point, edges included. */
  function IsOverInteractive(rects: seq<Rect>, x: real, y: real): (b: bool)
    ensures b <==> exists i :: 0 <= i < |rects| && rects[i].left <= x <= rects[i].right && rects[i].top <= y <= rects[i].bottom
  {
    ScanFrom(rects, x, y, false)
  }

  /** The answer does not depend on the order in which the elements are listed. */
  lemma OverInteractiveOrderIndependent(a: seq<Rect>, b: seq<Rect>, x: real, y: real)
    requires multiset(a) == multiset(b)
    ensures IsOverInteractive(a, x, y) == IsOverInteractive(b, x, y)
  {
    if IsOverInteractive(a, x, y) {
      var i :| 0 <= i < |a| && Contains(a[i], x, y);
      assert a[i] in multiset(b);
      var j :| 0 <= j < |b| && b[j] == a[i];
    }
    if IsOverInteractive(b, x, y) {
      var j :| 0 <= j < |b| && Contains(b[j], x, y);
      assert b[j] in multiset(a);
      var i :| 0 <= i < |a| && a[i] == b[j];
    }
  }

  /**
    `checkHoverState`: test the smoothed position against the rectangles;
    when the answer differs from the hover flag, set the flag to it and the
    target scale to match, otherwise leave the record alone.
   */
  function CheckHoverState(pos: Position, state: HoverState, rects: seq<Rect>): (next: HoverState)
    ensures next.isHovering == IsOverInteractive(rects, pos.x, pos.y)
    ensures next.scale == state.scale
    ensures IsOverInteractive(rects, pos.x, pos.y) == state.isHovering ==> next == state
    ensures IsOverInteractive(rects, pos.x, pos.y) != state.isHovering ==> Consistent(next)
    ensures Consistent(state) ==> Consistent(next)
  {
    var over := IsOverInteractive(rects, pos.x, pos.y);
    if over != state.isHovering then state.(isHovering := over, targetScale := ScaleFor(over))
    else state
  }

  /** A second check at the same position against the same rectangles changes nothing. */
  lemma CheckHoverIdempotent(pos: Position, state: HoverState, rects: seq<Rect>)
    ensures CheckHoverState(pos, CheckHoverState(pos, state, rects), rects) == CheckHoverState(pos, state, rects)
  {
  }

  /** `handleMouseMove`: record the pointer's client coordinates as the new target. */
  function HandleMouseMove(pos: Position, clientX: real, clientY: real): (next: Position)
    ensures next.targetX == clientX && next.targetY == clientY
    ensures next.x == pos.x && next.y == pos.y && next.prevX == pos.prevX && next.prevY == pos.prevY
  {
    pos.(targetX := clientX, targetY := clientY)
  }

  /** The whole mutable state of a mounted cursor. */
  datatype Cursor = Cursor(pos: Position, state: HoverState)

  /**
    What the cursor reacts to: a mouse move, or an animation frame whose
    smoothed position and scale were interpolated outside this model and
    whose rectangles are the interactive elements' boxes at that frame.
   */
  datatype Event =
    | MouseMove(clientX: real, clientY: real)
    | Frame(smoothedX: real, smoothedY: real, smoothedScale: real, rects: seq<Rect>)

  /** One event: a mouse move updates the target; a frame moves the cursor and then checks hover. */
  function Step(c: Cursor, e: Event): (next: Cursor)
    ensures e.MouseMove? ==> next.state == c.state
    ensures e.MouseMove? ==> next.pos == HandleMouseMove(c.pos, e.clientX, e.clientY)
    ensures e.Frame? ==> next.pos.x == e.smoothedX && next.pos.y == e.smoothedY
    ensures e.Frame? ==> next.state.scale == e.smoothedScale
    ensures e.Frame? ==> next.pos.prevX == c.pos.x && next.pos.prevY == c.pos.y
    ensures e.Frame? ==> next.pos.targetX == c.pos.targetX && next.pos.targetY == c.pos.targetY
    ensures e.Frame? ==> next.state.isHovering == IsOverInteractive(e.rects, e.smoothedX, e.smoothedY)
    ensures e.Frame? && next.state.isHovering == c.state.isHovering ==> next.state.targetScale == c.state.targetScale
    ensures Consistent(c.state) ==> Consistent(next.state)
  {
    match e
    case MouseMove(cx, cy) => c.(pos := HandleMouseMove(c.pos, cx, cy))
    case Frame(sx, sy, scale, rects) =>
      var moved := c.pos.(prevX := c.pos.x, prevY := c.pos.y, x := sx, y := sy);
      Cursor(moved, CheckHoverState(moved, c.state.(scale := scale), rects))
  }

  /**
    The state after a sequence of events, as the listener and the frame loop
    deliver them: each event acts on the state the previous one left, so the
    result of a non-empty run is the last event applied to the run before it.
   */
  function Run(c: Cursor, events: seq<Event>): (r: Cursor)
    ensures |events| == 0 ==> r == c
    ensures |events| > 0 ==> r == Step(Run(c, events[..|events| - 1]), events[|events| - 1])
    decreases |events|
  {
    if |events| == 0 then c
    else
      var r := Run(Step(c, events[0]), events[1..]);
      assert |events| > 1 ==> events[1..][..|events| - 2] == events[..|events| - 1][1..];
      assert events[..|events| - 1] == [] ==> Run(c, events[..|events| - 1]) == c;
      r
  }

  /** Target scale tracks the hover flag from mounting on, whatever events arrive. */
  lemma {:induction false} RunConsistent(c: Cursor, events: seq<Event>)
    requires Consistent(c.state)
    ensures Consistent(Run(c, events).state)
    decreases |events|
  {
    if |events| > 0 {
      RunConsistent(Step(c, events[0]), events[1..]);
    }
  }

  /** From the records the component is mounted with, target scale tracks the hover flag after any events. */
  lemma MountedRunConsistent(events: seq<Event>)
    ensures Consistent(Run(Cursor(InitialPosition, InitialState()), events).state)
  {
    RunConsistent(Cursor(InitialPosition, InitialState()), events);
  }

  /** Mouse moves alone never touch the hover record or the smoothed position. */
  lemma {:induction false} MouseMovesOnlyRetarget(c: Cursor, events: seq<Event>)
    requires forall k :: 0 <= k < |events| ==> events[k].MouseMove?
    ensures Run(c, events).state == c.state
    ensures Run(c, events).pos.x == c.pos.x && Run(c, events).pos.y == c.pos.y
    ensures Run(c, events).pos.prevX == c.pos.prevX && Run(c, events).pos.prevY == c.pos.prevY
    decreases |events|
  {
    if |events| > 0 {
      MouseMovesOnlyRetarget(Step(c, events[0]), events[1..]);
    }
  }

  /** The two layers the component renders: the ambient glow, then the cursor ring. */
  datatype Layer = AmbientGlow | CursorRing

  /** `CustomCursor`'s output: nothing on a touch device, otherwise the glow and the ring. */
  function Render(isTouchDevice: bool): (layers: seq<Layer>)
    ensures layers == [] <==> isTouchDevice
    ensures !isTouchDevice ==> AmbientGlow in layers && CursorRing in layers
  {
    if isTouchDevice then [] else [AmbientGlow, CursorRing]
  }

  /** What the effect installs: the frame loop and the mouse listener, or nothing. */
  datatype Installed = Installed(listensToMouse: bool, animates: bool)

  /**
    The effect's guards: it returns before installing anything on a touch
    device, or when either layer is missing so that its ref is unset.
   */
  function Effect(isTouchDevice: bool, layers: seq<Layer>): (inst: Installed)
    ensures inst.listensToMouse == inst.animates
    ensures inst.listensToMouse <==> !isTouchDevice && CursorRing in layers && AmbientGlow in layers
  {
    if isTouchDevice then Installed(false, false)
    else if !(CursorRing in layers) || !(AmbientGlow in layers) then Installed(false, false)
    else Installed(true, true)
  }

  /** Mounting: a touch device gets no listener, no frame loop and no output; any other gets all three. */
  lemma MountGuard(isTouchDevice: bool)
    ensures isTouchDevice ==> Render(isTouchDevice) == [] && !Effect(isTouchDevice, Render(isTouchDevice)).listensToMouse
    ensures isTouchDevice ==> !Effect(isTouchDevice, Render(isTouchDevice)).animates
    ensures !isTouchDevice ==> Effect(isTouchDevice, Render(isTouchDevice)) == Installed(true, true)
  {
  }
}

=== FILE: decimal.dfy ===
/**
  Decimal text of integers, as JavaScript's `Number.prototype.toString()`
  writes it for an integer value of magnitude at most 2^53 (larger values
  are rounded to the nearest double and written as its shortest digits
  padded with zeros, or from 10^21 in exponent notation; neither is
  modelled), together with
  `String.prototype.padStart` and a reference parser used to state round trips.
 */
module Decimal {

  predicate IsDigit(c: char) {
    '0' <= c <= '9'
  }

  predicate AllDigits(s: string) {
    forall i :: 0 <= i < |s| ==> IsDigit(s[i])
  }

  /** A digit string as `toString` writes it: non-empty, no leading zero unless it is "0". */
  predicate Canonical(s: string) {
    |s| >= 1 && AllDigits(s) && (s[0] == '0' ==> |s| == 1)
  }

  function DigitChar(d: int): (c: char)
    requires 0 <= d < 10
    ensures IsDigit(c)
    ensures c as int - '0' as int == d
  {
    ('0' as int + d) as char
  }

  function DigitValue(c: char): (d: nat)
    requires IsDigit(c)
    ensures d < 10
    ensures DigitChar(d) == c
  {
    c as int - '0' as int
  }

  /** The base-10 digits of `n`, most significant first. */
  function NatToString(n: nat): (s: string)
    ensures Canonical(s)
    ensures |s| == 1 <==> n < 10
    decreases n
  {
    if n < 10 then [DigitChar(n)] else NatToString(n / 10) + [DigitChar(n % 10)]
  }

  /** `n.toString()` for an integer-valued number at most 2^53 in magnitude: a minus sign, then the digits of |n|. */
  function IntToString(n: int): (s: string)
    ensures |s| >= 1
    ensures n >= 0 <==> s[0] != '-'
    ensures n >= 0 ==> Canonical(s)
    ensures n < 0 ==> Canonical(s[1..])
  {
    if n < 0 then "-" + NatToString(-n) else NatToString(n)
  }

  /** The value of a string of decimal digits (leading zeros allowed). */
  function ParseNat(s: string): nat
    requires AllDigits(s)
    decreases |s|
  {
    if |s| == 0 then 0 else 10 * ParseNat(s[..|s| - 1]) + DigitValue(s[|s| - 1])
  }

  /** An optional minus sign followed by decimal digits. */
  predicate Numeral(s: string) {
    if |s| > 0 && s[0] == '-' then AllDigits(s[1..]) else AllDigits(s)
  }

  /** The value of an optional minus sign followed by decimal digits. */
  function ParseInt(s: string): int
    requires Numeral(s)
  {
    if |s| > 0 && s[0] == '-' then -(ParseNat(s[1..]) as int) else ParseNat(s)
  }

  /** `s.padStart(width, [fill])`: prefix copies of `fill` until the length reaches `width`. */
  function PadStart(s: string, width: nat, fill: char): (r: string)
    ensures |r| == if |s| >= width then |s| else width
    ensures r[|r| - |s|..] == s
    ensures forall i :: 0 <= i < |r| - |s| ==> r[i] == fill
  {
    if |s| >= width then s else seq(width - |s|, _ => fill) + s
  }

  lemma {:induction false} ParseNatToString(n: nat)
    ensures ParseNat(NatToString(n)) == n
    decreases n
  {
    if n >= 10 {
      var s := NatToString(n);
      var p := NatToString(n / 10);
      assert s == p + [DigitChar(n % 10)];
      assert s[..|s| - 1] == p;
      ParseNatToString(n / 10);
    }
  }

  lemma ParseIntToString(n: int)
    ensures ParseInt(IntToString(n)) == n
  {
    if n < 0 {
      assert IntToString(n)[1..] == NatToString(-n);
      ParseNatToString(-n);
    } else {
      ParseNatToString(n);
    }
  }

  /** Distinct numbers are written differently. */
  lemma NatToStringInjective(a: nat, b: nat)
    requires NatToString(a) == NatToString(b)
    ensures a == b
  {
    ParseNatToString(a);
    ParseNatToString(b);
  }

  lemma {:induction false} ParseNatPositive(s: string)
    requires AllDigits(s) && |s| >= 1 && s[0] != '0'
    ensures ParseNat(s) >= 1
    decreases |s|
  {
    if |s| > 1 {
      ParseNatPositive(s[..|s| - 1]);
    }
  }

  /** The other direction of the round trip: every canonical digit string is some number's text. */
  lemma {:induction false} NatToStringOfParse(s: string)
    requires Canonical(s)
    ensures NatToString(ParseNat(s)) == s
    decreases |s|
  {
    if |s| > 1 {
      var p := s[..|s| - 1];
      var d := DigitValue(s[|s| - 1]);
      ParseNatPositive(p);
      NatToStringOfParse(p);
      var n := ParseNat(s);
      assert n == 10 * ParseNat(p) + d;
      assert n / 10 == ParseNat(p) && n % 10 == d;
      assert s == p + [s[|s| - 1]];
    }
  }
}
